=== FILE: README.md ===
# Habit tracker core, modelled in Dafny

A model of the stateful logic inside a Django habit-tracking service whose
users get Telegram reminders. It covers:

- **Habit validation.** The same four rules are written three times: `Habit.clean`, the field
  validators `validate_duration` / `validate_frequency`, and `HabitSerializer.validate`.
  The rules: a pleasant habit has no reward and no linked habit; a linked habit and a
  reward exclude each other; the duration is at most 120 seconds; the frequency lies in
  [1, 7]. The model proves that the three copies accept the same habits and report the
  same rule.
- **Reminder arithmetic.** `save` sets the first `next_reminder` to `now + frequency`
  days. `calculate_next_reminder` takes the date of `now + frequency` days and attaches
  the habit's time of day. Timestamps are integer seconds in one UTC-like zone. The day of
  an instant is `t / 86400` and its time of day is `t % 86400`.
- **The habit table.** Rows are keyed by an auto-increment primary key. Deleting a user
  cascades to that user's habits. Deleting a habit clears `linked_habit` in the habits
  that referenced it. Listings are ordered by `next_reminder`. The viewset's owner
  scoping applies to list, retrieve, create, update and destroy.
- **Users.** `create_user` checks that the email is present and contains `@`, and the
  email column is unique. `create_superuser` sets the flag defaults. `__str__` is the
  email.
- **Notifications.** `send_telegram_notification` does exactly one of three things:
  send, skip with a warning when the user has no chat id, or log that the user was not
  found.
- **The bot's `/start` handler.** It binds the sender's chat id to the first user with
  the sender's username.

Modules: `Base` (options, results, truthiness, timestamps, decimal text of integers),
`Habits`, `Serializer`, `HabitStore`, `Views`, `Users`, `Notify`, `Bot`.

Effects are values, not actions. A store operation returns the new table. The
notification task returns a decision plus the list of effects it causes: one `send_message`
call or one log warning. The bot handler returns the new user table plus the reply text.
The current instant `now` is a parameter. A new row's id is the table's next key-sequence
value (`nextId`), which the creating operation advances. The email normaliser is a
caller-supplied function.

Three behaviours of the code worth knowing:

- The first reminder written by `save` does not attach the habit's time of day
  (habits/models.py:59-60), unlike `calculate_next_reminder` (habits/models.py:52-54).
  `Habits.FirstReminderIgnoresTime` proves the two agree exactly when `now` already falls
  at the habit's time of day.
- For a habit created at 2024-01-01T10:00 with frequency 2 and time 09:00, the first
  reminder is 2024-01-03T10:00, not 09:00 (`Habits.ReminderScenario`).
- The code neither breaks ties in the listing order nor retries failed sends. The model
  adds neither.

## Model

| member | source | states |
|---|---|---|
| `Habits.Clean` | habits/models.py:28-43 | Accepts exactly when no rule is broken. Otherwise it raises the first broken rule in source order: pleasant-with-extras, link-and-reward, duration over 120, frequency outside [1, 7]. |
| `Habits.CleanAcceptsWellFormed` | habits/models.py:28-43 | `clean` accepts a habit exactly when the declared invariants hold: pleasant implies no reward and no link, a link implies no reward, duration ≤ 120, 1 ≤ frequency ≤ 7. |
| `Habits.ValidateDuration` | habits/validators.py:4-8 | Accepts exactly the values ≤ 120. A rejection is the duration rule. |
| `Habits.ValidateFrequency` | habits/validators.py:11-15 | Accepts exactly the values in [1, 7]. A rejection is the frequency rule. |
| `Habits.ValidatorBoundaries` | habits/validators.py:4-15 | 120 is accepted and 121 rejected as a duration. 1 and 7 are accepted and 0 and 8 rejected as a frequency. |
| `Habits.ValidatorsAgreeWithClean` | habits/models.py:17-43 | Each field validator rejects exactly what the matching check in `clean` rejects, with the same rule. `clean` accepts exactly when both validators and both relational rules pass. |
| `Habits.Save` | habits/models.py:57-61 | After `save` a reminder is always set. An unset reminder becomes exactly `now + frequency` days. A set reminder and every other field are left unchanged. |
| `Habits.SaveIdempotent` | habits/models.py:59-60 | Saving a second time, at any instant, changes nothing. |
| `Habits.CalculateNextReminder` | habits/models.py:45-55 | The new reminder falls on day(now) + frequency, at the habit's time of day. Every other field is unchanged. |
| `Habits.NextReminderBounds` | habits/models.py:50-54 | For 1 ≤ frequency ≤ 7 the new reminder is strictly after `now` and strictly before `now + (frequency + 1)` days. |
| `Habits.FirstReminderIgnoresTime` | habits/models.py:59-60 | The first reminder falls on day(now) + frequency but keeps now's time of day. It equals the recomputed reminder exactly when now's time of day is the habit's time. |
| `Habits.ReminderScenario` | habits/models.py:50-60 | Frequency 2, time 09:00, created at 2024-01-01T10:00Z: the first reminder is 2024-01-03T10:00Z. Recomputed at 2024-01-03T09:05Z, it moves to 2024-01-05T09:00Z. |
| `Base.Combine` | habits/models.py:52-53 | Combining a date and a time of day gives an instant with exactly that day and that time of day. |
| `Base.AddDays` | habits/models.py:51 | Adding `n` days moves the day by `n` and keeps the time of day. |
| `Serializer.ValidateAsWritten` | habits/serializers.py:10-19 | On success it returns its input unchanged, and only a complete, well-formed payload succeeds. On a complete payload every error is a broken rule. Once `is_pleasant` is present, a broken relational rule is reported as that rule, and then a duration over 120 as the duration rule, before any missing key is read. A missing `is_pleasant` always raises `KeyError`. When the relational rules pass, a missing `duration` raises `KeyError`. A missing `frequency` does too when the duration is also within 120. |
| `Serializer.OmittedFlagRaisesKeyError` | habits/serializers.py:11-17 | Two create payloads that are otherwise valid: one without `is_pleasant`, and one with `is_pleasant` but without `frequency`. The code as written raises `KeyError` on each, and the corrected `validate` accepts both. |
| `Serializer.WithDefaults` | habits/models.py:14-17 | An omitted `is_pleasant` becomes `False` and an omitted `frequency` becomes `1`, the model defaults. Values that are present are kept, and every other key is unchanged. |
| `Serializer.Validate` | habits/serializers.py:10-19 | Never raises `KeyError`. Accepts exactly when `duration` is present and the payload with defaults applied is well formed. On complete payloads it coincides with the code as written. |
| `Serializer.ThreeCopiesAgree` | habits/serializers.py:10-19 | For every habit, `validate` accepts its data exactly when `clean` accepts the habit, and otherwise reports the rule `clean` raises. This also holds exactly when both field validators and both relational rules pass. |
| `Serializer.ValidateMatchesCreatedHabit` | habits/serializers.py:10-19 | A creation payload passes `validate` exactly when the habit built from it, with the model defaults, passes `clean`. |
| `HabitStore.Write` | habits/models.py:61 | Writing a row stores it under its id and leaves every other row unchanged. It keeps the table invariant. |
| `HabitStore.DeleteRows` | habits/models.py:15 | Deleting a set of rows removes exactly those keys. Links to the deleted rows are cleared and nothing else in the remaining rows changes. Resolvable links stay resolvable. |
| `HabitStore.DeleteHabit` | habits/models.py:15-16 | Deleting a habit removes only that habit. Habits that linked to it survive with the link set to null. All other habits are unchanged. |
| `HabitStore.DeleteUser` | habits/models.py:10-16 | Deleting a user removes that user row and exactly the habits that user owns. A surviving habit has its link cleared exactly when the link pointed at one of the removed habits, and nothing else about it changes. It preserves "every owner exists" and "every link resolves". |
| `HabitStore.Insert` | habits/models.py:24 | Inserting into a listing sorted by `next_reminder` keeps it sorted. The result holds the same habits plus the new one. |
| `HabitStore.LowerBoundPrepends` | habits/models.py:24 | A habit due no later than every element of a sorted listing can be placed in front and the listing stays sorted. |
| `Views.GetObject` | habits/views.py:10-12 | A habit is found exactly when it exists and belongs to the requester. |
| `Views.GetQueryset` | habits/views.py:10-12 | The listing holds only the requester's habits and every one of them, each once. It is in ascending `next_reminder` order. |
| `Views.PerformCreate` | habits/views.py:14-16 | The new habit gets a fresh id and the requester as owner. It is the validated habit apart from id, owner and first reminder. `save` keeps a reminder the data already set, and otherwise sets it to `now` plus `frequency` days. Every other row and every other user's set of habits is unchanged. |
| `Views.PerformUpdate` | habits/views.py:18-20 | Only the requester's own habit can be updated; any other id fails. The row is saved with the requester as owner. `save` keeps a reminder that is already set, and sets an unset one to `now` plus `frequency` days. No other row changes and no habit changes owner. |
| `Views.Destroy` | habits/views.py:10-12 | Only the requester's own habit can be deleted; any other id fails. Only that row goes. Every surviving habit is unchanged, except that a link to the deleted habit is cleared. Other users keep exactly their sets of habits. |
| `Users.PasswordRoundTrip` | users/models.py:16 | `check_password` accepts exactly the password that was set. After `set_password(None)` it accepts nothing. |
| `Users.CreateUser` | users/models.py:9-18 | An empty email raises, and so does an email without `@`. A normalised email already in the table is refused. On success the table gains exactly one row with a fresh id. That row has the normalised email as its `str`, checks the given password, has the given or default flags and has no chat id unless one was given. Email uniqueness is preserved. |
| `Users.CreateSuperuser` | users/models.py:20-29 | `is_staff=False` raises, then `is_superuser=False` raises, before the email is looked at. A created superuser has both flags. Otherwise it succeeds exactly when `create_user` would, and fails with `create_user`'s error. A created superuser has the normalised email as its `__str__`, and `check_password` accepts exactly the given password. It is active unless told otherwise and keeps the given Telegram fields. |
| `Users.SecondUserWithSameEmailRefused` | users/models.py:34-38 | After a user is created, creating another user with the same email is refused. |
| `Notify.SendTelegramNotification` | telegram_app/tasks.py:11-20 | The decision is a send exactly when the user exists and has a non-empty chat id. The send goes to that chat id with the message verbatim. The decision is a skip when the user has no chat id and "not found" when the id is absent. |
| `Notify.DispatchEffects` | telegram_app/tasks.py:13-20 | Every call has exactly one effect. It is one send when the user has a chat id, and otherwise one warning: the no-chat warning with the email, or the not-found warning with the id. Nothing is raised. |
| `Notify.NotFoundWarningsDistinct` | telegram_app/tasks.py:19-20 | The not-found warning identifies the id: equal warnings mean equal ids. |
| `Bot.FirstFrom` | telegram_app/bot.py:18 | Returns the lowest matching id at or above the start. When nothing is returned, no row from the start up to the key sequence matches. |
| `Bot.First` | telegram_app/bot.py:18 | `.first()` returns the matching user with the lowest id, or nothing when no user matches. |
| `Bot.StartAsWritten` | telegram_app/bot.py:13-24 | Binds the chat id to the first user whose `telegram_username` equals the sender's, where a missing username equals an unset one. With no match the table is unchanged and the reply is the not-found reply. |
| `Bot.Start` | telegram_app/bot.py:13-24 | With a username: the first user with that username gets the chat id, and no other row and no other field changes. The reply greets that user's email. With no username or no match, the table is unchanged and the reply is the not-found reply. |
| `Bot.NamelessSenderBindsToUnnamedUser` | telegram_app/bot.py:15-21 | A sender with no username binds to user 1, whose username is unset, and receives user 1's email. The corrected handler changes nothing. |
| `Bot.StartEnablesDelivery` | telegram_app/bot.py:20-21 | Once `/start` has bound a user, a notification to that user is sent to the chat the command came from, with the message verbatim. |

## Findings

| source | as written | input that shows it | evidently intended | confidence | as-written member | corrected member |
|---|---|---|---|---|---|---|
| telegram_app/bot.py:15-21 | `filter(telegram_username=telegram_username)` runs even when the sender has no username. Django turns `=None` into `IS NULL`, so the first user with no `telegram_username` matches. | A Telegram account without a username sends `/start` while user 1 has no `telegram_username`. The stranger's chat is bound to user 1, and the reply shows user 1's email. | A sender without a username matches nobody. | high for the code path, assuming the ORM calls in the `async` handler are allowed to run (see `Bot.StartAsWritten` under Left out); not executed | `Bot.StartAsWritten` (shown by `Bot.NamelessSenderBindsToUnnamedUser`) | `Bot.Start` |
| habits/serializers.py:11-18 | `data['is_pleasant']`, `data['duration']` and `data['frequency']` are read with `[]`. `is_pleasant` and `frequency` have model defaults, so the client may omit them, and the framework then leaves them out of `data`. | A create request with duration 60 and no `is_pleasant` raises `KeyError` instead of being validated. | Omitted optional fields take the model defaults, and validation never crashes. | medium (relies on Django REST framework leaving unsent optional fields out of the validated data); not executed | `Serializer.ValidateAsWritten` (shown by `Serializer.OmittedFlagRaisesKeyError`) | `Serializer.Validate` |

## Left out

- Django ORM persistence, querysets and habits/migrations/0001_initial.py: the store is a map from primary key to row with an auto-increment counter. Database constraints other than the unique email and the two foreign-key delete policies are not modelled.
- `Habits.Save`, `Habits.CalculateNextReminder`: Python datetimes end at year 9999, and `now + timedelta(days=frequency)` (habits/models.py:51, 60) raises `OverflowError` past that. The model's instants are unbounded integers, so it always sets a reminder. The raise is reachable only with a frequency the validators reject (roughly 2.9 million days or more from a 2024 instant), because `Habit.objects.create` does not run validators.
- `Bot.StartAsWritten`, `Bot.Start`: `start` is an `async def` (telegram_app/bot.py:13) that calls the synchronous ORM directly (`filter(...).first()` and `user.save()`, bot.py:18-21). Under Django's async-safety guard these calls raise `SynchronousOnlyOperation` while the event loop runs, unless `DJANGO_ALLOW_ASYNC_UNSAFE` is set. The model assumes the calls run and treats the handler as a synchronous transition of the user table.
- Time zones: `timezone.make_aware` and daylight-saving ambiguity are not modelled. The model uses one fixed UTC-like zone. The source takes the UTC date of `now + frequency` days and interprets date plus time in the local zone; with a non-UTC zone the instant shifts by the zone offset. Timestamps are whole seconds, so microseconds are dropped.
- Password hashing and `normalize_email` are framework internals. Hashing is an abstract set/check pair, and the normaliser is a parameter.
- Validation error messages are abstracted as the rule they report. The field validators' texts differ slightly from `clean`'s texts; the rule is the same.
- Python's `is not True` on `create_superuser` flags is modelled for booleans only. A non-boolean flag cannot be expressed. An email of `None` behaves like the empty string and is not modelled separately.
- Telegram transport: building `Bot(token=...)`, transport errors and the SDK are not modelled, and `send_message` is recorded as the send. In the SDK generation whose `Application.builder` bot.py uses, `send_message` is a coroutine, and the task calls it without awaiting. Whether a message actually leaves is therefore outside this model.
- `setup_bot`, the polling loop, telegram_app/apps.py and the duplicate `TelegramAppConfig` in telegram_app/tests.py are I/O and concurrency.
- The `print` calls in `perform_create` / `perform_update` are console output only.
- Celery configuration (config/celery.py) and task enqueueing (`.delay`) are framework plumbing.
- habits/tasks.py is entirely a commented-out string literal. `send_reminders` and `habits.tasks.update_next_reminder` are imported by the tests but do not exist in the source, so they are not modelled.
- users/views.py (registration, login, token issuance) and URL routing are authentication and framework plumbing. habits/urls.py:11 routes to a `public` action that `HabitViewSet` does not define, so there is no public listing to model.
- `Habit.__str__` (habits/models.py:63-64) is display text only.
- The serializer's check that a linked habit id exists is framework field validation and is not modelled. It accepts any user's habit.
- `Serializer.Validate`: its defaults are the defaults a creation request gets. A partial update would need the stored row's values instead, and that case is not modelled.
- `Views.GetQueryset`: the order among habits with equal `next_reminder` is not stated, because the source leaves it to the database. Where NULLs sort is also database-dependent. The model puts NULL first. This cannot change a listing: the table invariant `HabitStore.Valid`, which every write keeps, says stored rows never hold NULL.

=== FILE: base.dfy ===
/**
  Shared vocabulary of the habit tracker model: optional values and results
  (the Python code's `None` and its raised exceptions), Python truthiness of a
  nullable text column, integer-second timestamps with their day / time-of-day
  split, and the decimal text Python's f-strings and `str()` give an integer.
 */
module Base {

  /** A nullable value (`None` in Python, NULL in the database). */
  datatype Option<+T> = None | Some(value: T) {
    /** The value, or `default` when absent (Python's `dict.get(key, default)`). */
    function GetOr(default: T): T {
      if Some? then value else default
    }
  }

  /** A value, or the error the Python code would raise instead of returning one. */
  datatype Result<+T, +E> = Ok(value: T) | Err(error: E)

  /** A check that either passes or raises one error. */
  datatype Outcome<+E> = Pass | Fail(error: E)

  /** Python truthiness of a nullable text column: `None` and `""` are falsy. */
  predicate TruthyText(s: Option<string>) {
    s.Some? && |s.value| > 0
  }

  // ----- Timestamps ---------------------------------------------------------

  const SecondsPerDay: int := 86400

  /** A wall-clock time of day (a `TimeField`), in whole seconds after midnight. */
  type TimeOfDay = t: int | 0 <= t < 86400

  /** The calendar day of an instant, counted from the epoch; rounds down, as Python dates do. */
  function DayOf(t: int): int {
    t / SecondsPerDay
  }

  /** The time of day of an instant. */
  function TimeOfDayOf(t: int): TimeOfDay {
    t % SecondsPerDay
  }

  /** `datetime.combine(day, tod)`: the instant on calendar day `day` at time `tod`. */
  function Combine(day: int, tod: TimeOfDay): (r: int)
    ensures DayOf(r) == day
    ensures TimeOfDayOf(r) == tod
  {
    day * SecondsPerDay + tod
  }

  /** Every instant is its day combined with its time of day. */
  lemma InstantSplits(t: int)
    ensures Combine(DayOf(t), TimeOfDayOf(t)) == t
  {
  }

  /** Adding `n` whole days (`timedelta(days=n)`) moves the day by `n` and keeps the time of day. */
  lemma AddDays(t: int, n: int)
    ensures DayOf(t + n * SecondsPerDay) == DayOf(t) + n
    ensures TimeOfDayOf(t + n * SecondsPerDay) == TimeOfDayOf(t)
  {
  }

  // ----- Decimal text of integers --------------------------------------------

  predicate IsDigit(c: char) {
    '0' <= c <= '9'
  }

  predicate AllDigits(s: string) {
    forall i :: 0 <= i < |s| ==> IsDigit(s[i])
  }

  function DigitChar(d: int): (c: char)
    requires 0 <= d < 10
    ensures IsDigit(c)
  {
    (48 + d) as char
  }

  function DigitValue(c: char): (d: nat)
    requires IsDigit(c)
    ensures d < 10
  {
    (c as int) - 48
  }

  /** The decimal digits of a natural number, most significant first, no leading zeros. */
  function NatToDecimal(n: nat): (s: string)
    ensures |s| >= 1
    ensures AllDigits(s)
    decreases n
  {
    if n < 10 then [DigitChar(n)] else NatToDecimal(n / 10) + [DigitChar(n % 10)]
  }

  /** Python's `str(n)` for an `int`. */
  function IntToDecimal(n: int): string {
    if n < 0 then "-" + NatToDecimal(-n) else NatToDecimal(n)
  }

  /** Reads a string of decimal digits back as the number it denotes. */
  function DecimalValue(s: string): nat
    requires AllDigits(s)
    decreases |s|
  {
    if |s| == 0 then 0 else 10 * DecimalValue(s[..|s| - 1]) + DigitValue(s[|s| - 1])
  }

  /** Reading the decimal text of `n` gives back `n`. */
  lemma {:induction false} DecimalRoundTrip(n: nat)
    ensures DecimalValue(NatToDecimal(n)) == n
    decreases n
  {
    var s := NatToDecimal(n);
    if n < 10 {
      assert s == [DigitChar(n)];
      assert s[..0] == [];
    } else {
      var prefix := NatToDecimal(n / 10);
      assert s == prefix + [DigitChar(n % 10)];
      assert s[..|s| - 1] == prefix;
      DecimalRoundTrip(n / 10);
    }
  }

  /** The text of an integer starts with '-' exactly when the integer is negative. */
  lemma SignShows(n: int)
    ensures |IntToDecimal(n)| >= 1
    ensures IntToDecimal(n)[0] == '-' <==> n < 0
  {
  }

  /** Distinct integers have distinct decimal texts. */
  lemma IntToDecimalInjective(a: int, b: int)
    requires IntToDecimal(a) == IntToDecimal(b)
    ensures a == b
  {
    SignShows(a);
    SignShows(b);
    var s := IntToDecimal(a);
    if a < 0 {
      assert NatToDecimal(-a) == s[1..] == NatToDecimal(-b);
      DecimalRoundTrip(-a);
      DecimalRoundTrip(-b);
    } else {
      DecimalRoundTrip(a);
      DecimalRoundTrip(b);
    }
  }
}

=== FILE: bot.dfy ===
/**
  The `/start` command handler of the Telegram bot: it looks up the user
  whose `telegram_username` is the sender's username, stores the chat id on
  that one row, and replies. `.first()` on the unordered queryset takes the
  lowest primary key.
 */
module Bot {
  import opened Base
  import opened Users
  import Notify

  const NotFoundReply: string := "Пользователь с таким Telegram username не найден."

  function Greeting(email: string): string {
    "Привет, " + email + "! Ваш Telegram-чат ID сохранен."
  }

  /**
    Django's `filter(telegram_username=x)`: plain equality for a text value,
    and `IS NULL` when `x` is `None`.
   */
  predicate FilterMatches(u: User, username: Option<string>) {
    u.telegramUsername == username
  }

  /** The lowest id at or above `i` whose row the filter matches. */
  function FirstFrom(t: UserTable, username: Option<string>, i: nat): (r: Option<UserId>)
    ensures r.Some? ==> i <= r.value && r.value in t.rows && FilterMatches(t.rows[r.value], username)
    ensures r.Some? ==> forall j :: i <= j < r.value && j in t.rows ==> !FilterMatches(t.rows[j], username)
    ensures r.None? ==> forall j :: i <= j < t.nextId && j in t.rows ==> !FilterMatches(t.rows[j], username)
    decreases t.nextId - i
  {
    if i >= t.nextId then None
    else if i in t.rows && FilterMatches(t.rows[i], username) then Some(i)
    else FirstFrom(t, username, i + 1)
  }

  /** `filter(...).first()`: the matching row with the lowest id, if any. */
  function First(t: UserTable, username: Option<string>): (r: Option<UserId>)
    requires Valid(t)
    ensures r.Some? ==> r.value in t.rows && FilterMatches(t.rows[r.value], username)
    ensures r.Some? ==> forall j :: j in t.rows && j < r.value ==> !FilterMatches(t.rows[j], username)
    ensures r.None? ==> forall j :: j in t.rows ==> !FilterMatches(t.rows[j], username)
  {
    FirstFrom(t, username, 0)
  }

  /** Stores the chat id, as the decimal text the `CharField` holds, on row `k` and greets its user. */
  function Bind(t: UserTable, k: UserId, chatId: int): (r: (UserTable, string))
    requires k in t.rows
  {
    var u := t.rows[k];
    (UserTable(t.rows[k := u.(telegramChatId := Some(IntToDecimal(chatId)))], t.nextId), Greeting(u.email))
  }

  /**
    `start` as written: the filter is applied to the sender's username even
    when the sender has none, so a nameless sender matches the first user
    whose `telegram_username` is unset.
   */
  function StartAsWritten(t: UserTable, chatId: int, username: Option<string>): (r: (UserTable, string))
    requires Valid(t)
    ensures forall k ::
      (k in t.rows && t.rows[k].telegramUsername == username &&
       forall j :: j in t.rows && j < k ==> t.rows[j].telegramUsername != username) ==>
        r == Bind(t, k, chatId)
    ensures (forall k :: k in t.rows ==> t.rows[k].telegramUsername != username) ==> r == (t, NotFoundReply)
  {
    match First(t, username)
    case Some(k) => Bind(t, k, chatId)
    case None => (t, NotFoundReply)
  }

  /**
    `start` corrected: only a sender that has a username is looked up. The
    first user (lowest id) with that username gets the chat id and the
    greeting; no other row, and no other field of that row, changes. With no
    match the table is unchanged and the not-found reply is sent.
   */
  function Start(t: UserTable, chatId: int, username: Option<string>): (r: (UserTable, string))
    requires Valid(t)
    ensures Valid(r.0)
    ensures forall k ::
      (k in t.rows && username.Some? && t.rows[k].telegramUsername == username &&
       forall j :: j in t.rows && j < k ==> t.rows[j].telegramUsername != username) ==>
        && r.0.rows == t.rows[k := t.rows[k].(telegramChatId := Some(IntToDecimal(chatId)))]
        && r.0.nextId == t.nextId
        && r.1 == Greeting(t.rows[k].email)
    ensures (username.None? || forall k :: k in t.rows ==> t.rows[k].telegramUsername != username) ==>
      r == (t, NotFoundReply)
  {
    if username.None? then (t, NotFoundReply) else StartAsWritten(t, chatId, username)
  }

  /**
    A Telegram account without a username sends `/start` while user 1 has no
    `telegram_username`: the code as written binds that stranger's chat to
    user 1 and greets them with user 1's email; the corrected handler changes
    nothing.
   */
  lemma NamelessSenderBindsToUnnamedUser()
    ensures
      var u := User(1, "owner@example.com", Unusable, None, None, None, true, false, false);
      var t := UserTable(map[1 := u], 2);
      && StartAsWritten(t, 42, None).0.rows[1].telegramChatId == Some("42")
      && StartAsWritten(t, 42, None).1 == Greeting("owner@example.com")
      && Start(t, 42, None) == (t, NotFoundReply)
  {
    var u := User(1, "owner@example.com", Unusable, None, None, None, true, false, false);
    var t := UserTable(map[1 := u], 2);
    assert FilterMatches(t.rows[1], None);
    assert IntToDecimal(42) == "42";
  }

  /**
    What `/start` writes is what the notification task reads: once the
    handler has bound a user, a notification to that user is sent, verbatim,
    to the chat the command came from.
   */
  lemma StartEnablesDelivery(t: UserTable, chatId: int, username: string, message: string)
    requires Valid(t)
    requires First(t, Some(username)).Some?
    ensures var k := First(t, Some(username)).value;
      Notify.SendTelegramNotification(Start(t, chatId, Some(username)).0, k, message)
        == Notify.Sent(IntToDecimal(chatId), message)
  {
  }
}

=== FILE: habits.dfy ===
/**
  The `Habit` record with the two copies of its validation rules that live
  beside it — the model's `clean` and the per-field validators — and its
  reminder arithmetic: the first-reminder initialisation done by `save` and
  the recomputation done by `calculate_next_reminder`.
 */
module Habits {
  import opened Base
  import Users

  type HabitId = nat

  /** One row of the habit table. `linkedHabit` is a nullable reference to another habit by id. */
  datatype Habit = Habit(
    id: HabitId,
    user: Users.UserId,
    action: string,
    time: TimeOfDay,
    place: string,
    isPleasant: bool,
    linkedHabit: Option<HabitId>,
    frequency: int,
    reward: Option<string>,
    duration: int,
    isPublic: bool,
    nextReminder: Option<int>)

  const MaxDuration: int := 120
  const MinFrequency: int := 1
  const MaxFrequency: int := 7

  // ----- The four rules -------------------------------------------------------

  /** The four validation rules, named by the violation they report. */
  datatype Rule = PleasantHasExtras | LinkAndReward | DurationTooLong | FrequencyOutOfRange

  /** The position of a rule in the order every copy checks them. */
  function Rank(rule: Rule): nat {
    match rule
    case PleasantHasExtras => 0
    case LinkAndReward => 1
    case DurationTooLong => 2
    case FrequencyOutOfRange => 3
  }

  /**
    What the rules look at: the pleasant flag, whether a linked habit and a
    reward are present in Python's truthy sense, the duration and the frequency.
   */
  datatype Shape = Shape(isPleasant: bool, hasLink: bool, hasReward: bool, duration: int, frequency: int)

  function ShapeOf(h: Habit): Shape {
    Shape(h.isPleasant, h.linkedHabit.Some?, TruthyText(h.reward), h.duration, h.frequency)
  }

  /** The habit's data breaks the given rule. */
  predicate Violates(s: Shape, rule: Rule) {
    match rule
    case PleasantHasExtras => s.isPleasant && (s.hasLink || s.hasReward)
    case LinkAndReward => s.hasLink && s.hasReward
    case DurationTooLong => s.duration > MaxDuration
    case FrequencyOutOfRange => s.frequency < MinFrequency || s.frequency > MaxFrequency
  }

  /**
    The invariants of a valid habit, stated declaratively: a pleasant habit has
    neither reward nor linked habit, a linked habit excludes a reward, the
    duration is at most 120 seconds and the frequency lies in [1, 7].
   */
  predicate WellFormed(s: Shape) {
    && (s.isPleasant ==> !s.hasReward && !s.hasLink)
    && (s.hasLink ==> !s.hasReward)
    && s.duration <= MaxDuration
    && MinFrequency <= s.frequency <= MaxFrequency
  }

  /** `Habit.clean`: raises for the first rule the habit breaks, in source order. */
  function Clean(h: Habit): (r: Outcome<Rule>)
    ensures r.Pass? <==> forall rule :: !Violates(ShapeOf(h), rule)
    ensures r.Fail? ==> Violates(ShapeOf(h), r.error)
    ensures r.Fail? ==> forall rule :: Rank(rule) < Rank(r.error) ==> !Violates(ShapeOf(h), rule)
  {
    if h.isPleasant && (h.linkedHabit.Some? || TruthyText(h.reward)) then
      assert Violates(ShapeOf(h), PleasantHasExtras);
      Fail(PleasantHasExtras)
    else if h.linkedHabit.Some? && TruthyText(h.reward) then
      assert Violates(ShapeOf(h), LinkAndReward);
      Fail(LinkAndReward)
    else if h.duration > 120 then
      assert Violates(ShapeOf(h), DurationTooLong);
      Fail(DurationTooLong)
    else if h.frequency < 1 || h.frequency > 7 then
      assert Violates(ShapeOf(h), FrequencyOutOfRange);
      Fail(FrequencyOutOfRange)
    else
      Pass
  }

  /** `clean` accepts a habit exactly when the declarative invariants hold. */
  lemma CleanAcceptsWellFormed(h: Habit)
    ensures Clean(h).Pass? <==> WellFormed(ShapeOf(h))
  {
  }

  // ----- Field validators -----------------------------------------------------

  /** `validate_duration`, attached to the `duration` field. */
  function ValidateDuration(value: int): (r: Outcome<Rule>)
    ensures r.Pass? <==> value <= MaxDuration
    ensures r.Fail? ==> r.error == DurationTooLong
  {
    if value > 120 then Fail(DurationTooLong) else Pass
  }

  /** `validate_frequency`, attached to the `frequency` field. */
  function ValidateFrequency(value: int): (r: Outcome<Rule>)
    ensures r.Pass? <==> MinFrequency <= value <= MaxFrequency
    ensures r.Fail? ==> r.error == FrequencyOutOfRange
  {
    if value < 1 || value > 7 then Fail(FrequencyOutOfRange) else Pass
  }

  /** The boundary values: 120 is the longest accepted duration, 1 and 7 the extreme frequencies. */
  lemma ValidatorBoundaries()
    ensures ValidateDuration(120).Pass? && ValidateDuration(121).Fail?
    ensures ValidateFrequency(1).Pass? && ValidateFrequency(7).Pass?
    ensures ValidateFrequency(0).Fail? && ValidateFrequency(8).Fail?
  {
  }

  /**
    The field validators and `clean` agree: each validator rejects exactly the
    values that `clean`'s matching rule rejects, and a habit `clean` accepts
    passes both validators; `clean` accepts exactly the habits that pass both
    validators and neither of the two relational rules.
   */
  lemma ValidatorsAgreeWithClean(h: Habit)
    ensures ValidateDuration(h.duration).Fail? <==> Violates(ShapeOf(h), DurationTooLong)
    ensures ValidateFrequency(h.frequency).Fail? <==> Violates(ShapeOf(h), FrequencyOutOfRange)
    ensures Clean(h).Pass? <==>
      && ValidateDuration(h.duration).Pass?
      && ValidateFrequency(h.frequency).Pass?
      && !Violates(ShapeOf(h), PleasantHasExtras)
      && !Violates(ShapeOf(h), LinkAndReward)
    ensures Clean(h).Fail? && Clean(h).error == DurationTooLong ==> ValidateDuration(h.duration) == Clean(h)
    ensures Clean(h).Fail? && Clean(h).error == FrequencyOutOfRange ==> ValidateFrequency(h.frequency) == Clean(h)
  {
  }

  // ----- Reminder arithmetic --------------------------------------------------

  /**
    `Habit.save`: before the row is written, an unset `next_reminder` becomes
    `now + frequency days`; a set one is kept. Nothing else changes.
   */
  function Save(h: Habit, now: int): (r: Habit)
    ensures r.nextReminder.Some?
    ensures r.(nextReminder := h.nextReminder) == h
    ensures h.nextReminder.Some? ==> r == h
    ensures h.nextReminder.None? ==> r.nextReminder.value - now == h.frequency * SecondsPerDay
  {
    if h.nextReminder.None? then
      h.(nextReminder := Some(now + h.frequency * SecondsPerDay))
    else
      h
  }

  /** Saving again never moves a reminder that is already set. */
  lemma SaveIdempotent(h: Habit, now: int, later: int)
    ensures Save(Save(h, now), later) == Save(h, now)
  {
  }

  /**
    `Habit.calculate_next_reminder`: the date of `now + frequency days`,
    combined with the habit's time of day, then saved. Only `next_reminder` changes.
   */
  function CalculateNextReminder(h: Habit, now: int): (r: Habit)
    ensures r.nextReminder.Some?
    ensures DayOf(r.nextReminder.value) == DayOf(now) + h.frequency
    ensures TimeOfDayOf(r.nextReminder.value) == h.time
    ensures r.(nextReminder := h.nextReminder) == h
  {
    AddDays(now, h.frequency);
    var nextDate := DayOf(now + h.frequency * SecondsPerDay);
    Save(h.(nextReminder := Some(Combine(nextDate, h.time))), now)
  }

  /**
    For a frequency the validators accept, the recomputed reminder lies strictly
    after `now` and strictly before `now + (frequency + 1)` days.
   */
  lemma NextReminderBounds(h: Habit, now: int)
    requires MinFrequency <= h.frequency <= MaxFrequency
    ensures now < CalculateNextReminder(h, now).nextReminder.value
    ensures CalculateNextReminder(h, now).nextReminder.value < now + (h.frequency + 1) * SecondsPerDay
  {
  }

  /**
    The first reminder set by `save` keeps the time of day of `now` instead of
    the habit's `time`; it agrees with `calculate_next_reminder` exactly when
    `now` already falls at the habit's time of day.
   */
  lemma FirstReminderIgnoresTime(h: Habit, now: int)
    requires h.nextReminder.None?
    ensures DayOf(Save(h, now).nextReminder.value) == DayOf(now) + h.frequency
    ensures TimeOfDayOf(Save(h, now).nextReminder.value) == TimeOfDayOf(now)
    ensures Save(h, now) == CalculateNextReminder(h, now) <==> TimeOfDayOf(now) == h.time
  {
  }

  /**
    A habit with frequency 2 and time 09:00 created at 2024-01-01T10:00Z gets
    its first reminder at 2024-01-03T10:00Z; recomputed at 2024-01-03T09:05Z it
    moves to 2024-01-05T09:00Z.
   */
  lemma ReminderScenario(h: Habit)
    requires h.frequency == 2 && h.time == 9 * 3600 && h.nextReminder.None?
    ensures Save(h, 1704103200).nextReminder == Some(1704276000)
    ensures CalculateNextReminder(Save(h, 1704103200), 1704272700).nextReminder == Some(1704445200)
  {
  }
}

=== FILE: notify.dfy ===
/**
  `send_telegram_notification`: the decision the task takes for a user id and
  a message — send to the user's chat, log that the user has no chat id, or
  log that the user does not exist — and the effects that decision produces.
  The decision only reads the user table.
 */
module Notify {
  import opened Base
  import opened Users

  /** What the task does; exactly one of the three. */
  datatype Dispatch =
    | Sent(chatId: string, text: string)
    | SkippedNoChat(email: string)
    | UserNotFound(userId: int)

  /** An observable effect: a call to the bot's `send_message`, or a warning in the log. */
  datatype Effect = SendMessage(chatId: string, text: string) | LogWarning(text: string)

  function NoChatWarning(email: string): string {
    "У пользователя " + email + " нет telegram_chat_id"
  }

  function NotFoundWarning(userId: int): string {
    "Пользователь с ID " + IntToDecimal(userId) + " не найден"
  }

  /** `CustomUser.objects.get(id=user_id)` succeeds. */
  predicate Found(users: UserTable, userId: int) {
    userId >= 0 && (userId as UserId) in users.rows
  }

  function SendTelegramNotification(users: UserTable, userId: int, message: string): (r: Dispatch)
    ensures r.Sent? <==> Found(users, userId) && TruthyText(users.rows[userId as UserId].telegramChatId)
    ensures r.Sent? ==> r.chatId == users.rows[userId as UserId].telegramChatId.value && r.text == message
    ensures r.SkippedNoChat? <==> Found(users, userId) && !TruthyText(users.rows[userId as UserId].telegramChatId)
    ensures r.SkippedNoChat? ==> r.email == users.rows[userId as UserId].email
    ensures r.UserNotFound? <==> !Found(users, userId)
    ensures r.UserNotFound? ==> r.userId == userId
  {
    if userId < 0 || (userId as UserId) !in users.rows then
      UserNotFound(userId)
    else
      var user := users.rows[userId as UserId];
      if user.telegramChatId.Some? && user.telegramChatId.value != "" then
        Sent(user.telegramChatId.value, message)
      else
        SkippedNoChat(user.email)
  }

  /** The effects of a decision, in order. */
  function Effects(d: Dispatch): seq<Effect> {
    match d
    case Sent(chat, text) => [SendMessage(chat, text)]
    case SkippedNoChat(email) => [LogWarning(NoChatWarning(email))]
    case UserNotFound(id) => [LogWarning(NotFoundWarning(id))]
  }

  /**
    Each call has exactly one effect. A user with a chat id gets exactly one
    send, of the message verbatim; otherwise nothing is sent, one warning is
    logged, and nothing is raised.
   */
  lemma DispatchEffects(users: UserTable, userId: int, message: string)
    ensures var effects := Effects(SendTelegramNotification(users, userId, message));
      && |effects| == 1
      && (Found(users, userId) && TruthyText(users.rows[userId as UserId].telegramChatId) ==>
            effects == [SendMessage(users.rows[userId as UserId].telegramChatId.value, message)])
      && (Found(users, userId) && !TruthyText(users.rows[userId as UserId].telegramChatId) ==>
            effects == [LogWarning(NoChatWarning(users.rows[userId as UserId].email))])
      && (!Found(users, userId) ==> effects == [LogWarning(NotFoundWarning(userId))])
  {
  }

  /** The not-found warning names the user id: different ids give different warnings. */
  lemma NotFoundWarningsDistinct(a: int, b: int)
    requires NotFoundWarning(a) == NotFoundWarning(b)
    ensures a == b
  {
    var prefix, suffix := "Пользователь с ID ", " не найден";
    var w := NotFoundWarning(a);
    var x, y := IntToDecimal(a), IntToDecimal(b);
    assert w == prefix + x + suffix;
    assert w == prefix + y + suffix;
    assert |x| == |y|;
    assert x == w[|prefix|..|prefix| + |x|];
    assert y == w[|prefix|..|prefix| + |y|];
    IntToDecimalInjective(a, b);
  }
}

=== FILE: serializer.dfy ===
/**
  `HabitSerializer.validate`, the third copy of the habit rules. Its input is
  the dictionary of validated request fields; a field the client did not send
  is absent from it (`None` here), so `data['key']` on an absent key raises
  `KeyError` while `data.get('key')` yields `None`.
 */
module Serializer {
  import opened Base
  import opened Habits

  /** The validated data dictionary; `None` marks a key that is absent. */
  datatype Payload = Payload(
    action: Option<string>,
    time: Option<TimeOfDay>,
    place: Option<string>,
    isPleasant: Option<bool>,
    linkedHabit: Option<HabitId>,
    frequency: Option<int>,
    reward: Option<string>,
    duration: Option<int>,
    isPublic: Option<bool>,
    nextReminder: Option<int>)

  /** How validation ends when it does not return the data. */
  datatype ValidateError =
    | Violation(rule: Rule)      // serializers.ValidationError: a 400 response
    | Required(field: string)    // a validation error for a missing required field
    | KeyError(key: string)      // an uncaught exception: a 500 response

  /** The payload a client sends for an existing habit row, every key present. */
  function PayloadOf(h: Habit): (p: Payload)
    ensures Complete(p)
  {
    Payload(Some(h.action), Some(h.time), Some(h.place), Some(h.isPleasant), h.linkedHabit,
            Some(h.frequency), h.reward, Some(h.duration), Some(h.isPublic), h.nextReminder)
  }

  /** Every key that `validate` reads with `[]` is present. */
  predicate Complete(p: Payload) {
    p.isPleasant.Some? && p.duration.Some? && p.frequency.Some?
  }

  /** The shape the rules see for a complete payload. */
  function PayloadShape(p: Payload): Shape
    requires Complete(p)
  {
    Shape(p.isPleasant.value, p.linkedHabit.Some?, TruthyText(p.reward), p.duration.value, p.frequency.value)
  }

  /** One of the two rules relating fields breaks: a pleasant habit with extras, or a link with a reward. */
  predicate RelationalRuleBroken(p: Payload)
    requires p.isPleasant.Some?
  {
    (p.isPleasant.value && (p.linkedHabit.Some? || TruthyText(p.reward))) || (p.linkedHabit.Some? && TruthyText(p.reward))
  }

  /**
    `validate` as written: `is_pleasant`, `duration` and `frequency` are read
    with `[]` and raise `KeyError` when the client omitted them; on success the
    input is returned unchanged.
   */
  function ValidateAsWritten(p: Payload): (r: Result<Payload, ValidateError>)
    ensures r.Ok? ==> r.value == p
    ensures r.Ok? ==> Complete(p) && WellFormed(PayloadShape(p))
    ensures Complete(p) ==> r.Ok? || (r.Err? && r.error.Violation? && Violates(PayloadShape(p), r.error.rule))
    ensures p.isPleasant.None? ==> r == Err(KeyError("is_pleasant"))
    ensures p.isPleasant.Some? && RelationalRuleBroken(p) ==>
      r == Err(Violation(if p.isPleasant.value && (p.linkedHabit.Some? || TruthyText(p.reward))
                         then PleasantHasExtras else LinkAndReward))
    ensures (p.isPleasant.Some? && !RelationalRuleBroken(p) && p.duration.Some? &&
             p.duration.value > MaxDuration) ==> r == Err(Violation(DurationTooLong))
    ensures p.isPleasant.Some? && p.duration.None? && !RelationalRuleBroken(p) ==> r == Err(KeyError("duration"))
    ensures (p.isPleasant.Some? && p.duration.Some? && p.frequency.None? && !RelationalRuleBroken(p) &&
             p.duration.value <= MaxDuration) ==> r == Err(KeyError("frequency"))
  {
    if p.isPleasant.None? then
      Err(KeyError("is_pleasant"))
    else if p.isPleasant.value && (p.linkedHabit.Some? || TruthyText(p.reward)) then
      Err(Violation(PleasantHasExtras))
    else if p.linkedHabit.Some? && TruthyText(p.reward) then
      Err(Violation(LinkAndReward))
    else if p.duration.None? then
      Err(KeyError("duration"))
    else if p.duration.value > 120 then
      Err(Violation(DurationTooLong))
    else if p.frequency.None? then
      Err(KeyError("frequency"))
    else if p.frequency.value < 1 || p.frequency.value > 7 then
      Err(Violation(FrequencyOutOfRange))
    else
      Ok(p)
  }

  /**
    Two create requests that omit an optional field but are otherwise valid:
    one without `is_pleasant`, one with `is_pleasant` but without `frequency`.
    The code as written raises `KeyError` on each, whereas the corrected
    `Validate` accepts both.
   */
  lemma OmittedFlagRaisesKeyError()
    ensures
      var p := Payload(Some("walk"), Some(32400), Some("park"), None, None, None, None, Some(60), None, None);
      && ValidateAsWritten(p) == Err(KeyError("is_pleasant"))
      && Validate(p) == Ok(p)
    ensures
      var p := Payload(Some("walk"), Some(32400), Some("park"), Some(false), None, None, None, Some(60), None, None);
      && ValidateAsWritten(p) == Err(KeyError("frequency"))
      && Validate(p) == Ok(p)
  {
  }

  /**
    The payload `validate` should check on creation: an omitted `is_pleasant`
    or `frequency` takes the model field's default (`False`, `1`).
   */
  function WithDefaults(p: Payload): (q: Payload)
    ensures q.isPleasant.Some? && q.frequency.Some?
    ensures p.isPleasant.Some? ==> q.isPleasant == p.isPleasant
    ensures p.frequency.Some? ==> q.frequency == p.frequency
    ensures p.isPleasant.None? ==> q.isPleasant == Some(false)
    ensures p.frequency.None? ==> q.frequency == Some(1)
    ensures q.(isPleasant := p.isPleasant, frequency := p.frequency) == p
  {
    p.(isPleasant := Some(p.isPleasant.GetOr(false)), frequency := Some(p.frequency.GetOr(1)))
  }

  /**
    `validate` corrected: the rules are checked against the values the habit
    will actually have, so an omitted optional field is never a crash; only a
    missing `duration`, which has no default, is reported, as a validation error.
   */
  function Validate(p: Payload): (r: Result<Payload, ValidateError>)
    ensures r.Ok? ==> r.value == p
    ensures r.Err? ==> !r.error.KeyError?
    ensures r.Ok? <==> p.duration.Some? && WellFormed(PayloadShape(WithDefaults(p)))
    ensures Complete(p) ==> r == ValidateAsWritten(p)
  {
    var q := WithDefaults(p);
    if q.duration.None? then
      if q.isPleasant.value && (q.linkedHabit.Some? || TruthyText(q.reward)) then
        Err(Violation(PleasantHasExtras))
      else if q.linkedHabit.Some? && TruthyText(q.reward) then
        Err(Violation(LinkAndReward))
      else
        Err(Required("duration"))
    else
      match ValidateAsWritten(q)
      case Ok(_) => Ok(p)
      case Err(e) => Err(e)
  }

  /**
    The three copies accept exactly the same habits: for the payload of any
    habit row, `validate` (as written and corrected) returns the data exactly
    when `clean` passes, and otherwise reports the same rule `clean` raises;
    and `clean` passes exactly when both field validators and the two
    relational rules do.
   */
  lemma ThreeCopiesAgree(h: Habit)
    ensures ValidateAsWritten(PayloadOf(h)) == Validate(PayloadOf(h))
    ensures Validate(PayloadOf(h)).Ok? <==> Clean(h).Pass?
    ensures Validate(PayloadOf(h)).Err? ==> Clean(h).Fail? && Validate(PayloadOf(h)).error == Violation(Clean(h).error)
    ensures Validate(PayloadOf(h)).Ok? <==>
      && ValidateDuration(h.duration).Pass?
      && ValidateFrequency(h.frequency).Pass?
      && !Violates(ShapeOf(h), PleasantHasExtras)
      && !Violates(ShapeOf(h), LinkAndReward)
  {
  }

  /**
    On creation the corrected `validate` accepts a payload exactly when the
    habit built from it, with the model defaults, passes `clean`.
   */
  lemma ValidateMatchesCreatedHabit(p: Payload, h: Habit)
    requires p.duration.Some?
    requires h.isPleasant == p.isPleasant.GetOr(false) && h.frequency == p.frequency.GetOr(1)
    requires h.linkedHabit == p.linkedHabit && h.reward == p.reward && h.duration == p.duration.value
    ensures Validate(p).Ok? <==> Clean(h).Pass?
  {
  }
}

=== FILE: store.dfy ===
/**
  The habit table and the relations declared on `Habit`: rows by primary key,
  the foreign-key delete policies (`user` CASCADE, `linked_habit` SET_NULL)
  and the default ordering by `next_reminder`.
 */
module HabitStore {
  import opened Base
  import opened Habits
  import Users

  /** The habit table: rows by primary key and the next value of the key sequence. */
  datatype HabitTable = HabitTable(rows: map<HabitId, Habit>, nextId: HabitId)

  /**
    Keys come from the sequence, each row carries its own key, and every row
    has a reminder, since every row is written through `save`.
   */
  predicate Valid(t: HabitTable) {
    forall k :: k in t.rows ==> k < t.nextId && t.rows[k].id == k && t.rows[k].nextReminder.Some?
  }

  /** Every linked habit names a row of the table. */
  predicate LinksResolve(t: HabitTable) {
    forall k :: k in t.rows && t.rows[k].linkedHabit.Some? ==> t.rows[k].linkedHabit.value in t.rows
  }

  /** Every habit's owner is a row of the user table. */
  predicate OwnersExist(users: Users.UserTable, t: HabitTable) {
    forall k :: k in t.rows ==> t.rows[k].user in users.rows
  }

  /** The ids of the habits a user owns. */
  function OwnedBy(t: HabitTable, owner: Users.UserId): set<HabitId> {
    set k | k in t.rows && t.rows[k].user == owner
  }

  /** Writes one row (the `INSERT` or `UPDATE` behind `Model.save`). */
  function Write(t: HabitTable, h: Habit): (r: HabitTable)
    requires h.id < t.nextId
    ensures r.rows.Keys == t.rows.Keys + {h.id}
    ensures r.rows[h.id] == h
    ensures forall k :: k in t.rows && k != h.id ==> r.rows[k] == t.rows[k]
    ensures Valid(t) && h.nextReminder.Some? ==> Valid(r)
  {
    HabitTable(t.rows[h.id := h], t.nextId)
  }

  // ----- Deletion ---------------------------------------------------------------

  /** `on_delete=SET_NULL` applied to one row, for the deleted ids `gone`. */
  function Unlink(h: Habit, gone: set<HabitId>): Habit {
    if h.linkedHabit.Some? && h.linkedHabit.value in gone then h.(linkedHabit := None) else h
  }

  /**
    Deletes the rows `gone`; every remaining row that linked to one of them has
    its link cleared, and nothing else about it changes.
   */
  function DeleteRows(t: HabitTable, gone: set<HabitId>): (r: HabitTable)
    ensures r.rows.Keys == t.rows.Keys - gone
    ensures r.nextId == t.nextId
    ensures forall k :: k in r.rows ==> r.rows[k].linkedHabit.None? || r.rows[k].linkedHabit.value !in gone
    ensures forall k :: k in r.rows ==> r.rows[k].(linkedHabit := t.rows[k].linkedHabit) == t.rows[k]
    ensures forall k :: k in r.rows && r.rows[k].linkedHabit != t.rows[k].linkedHabit ==>
      r.rows[k].linkedHabit.None? && t.rows[k].linkedHabit.value in gone
    ensures Valid(t) ==> Valid(r)
    ensures LinksResolve(t) ==> LinksResolve(r)
  {
    HabitTable(map k | k in t.rows && k !in gone :: Unlink(t.rows[k], gone), t.nextId)
  }

  /**
    Deleting one habit: it alone disappears, and every habit that linked to it
    keeps existing with its link cleared.
   */
  function DeleteHabit(t: HabitTable, id: HabitId): (r: HabitTable)
    ensures r.rows.Keys == t.rows.Keys - {id}
    ensures forall k :: k in r.rows ==> r.rows[k].linkedHabit != Some(id)
    ensures forall k :: k in r.rows && t.rows[k].linkedHabit == Some(id) ==>
      r.rows[k] == t.rows[k].(linkedHabit := None)
    ensures forall k :: k in r.rows && t.rows[k].linkedHabit != Some(id) ==> r.rows[k] == t.rows[k]
    ensures Valid(t) ==> Valid(r)
    ensures LinksResolve(t) ==> LinksResolve(r)
  {
    DeleteRows(t, {id})
  }

  /**
    Deleting a user: the user row goes, the habits it owns cascade, and links
    to the cascaded habits are cleared in the habits that remain.
   */
  function DeleteUser(users: Users.UserTable, t: HabitTable, uid: Users.UserId): (r: (Users.UserTable, HabitTable))
    ensures r.0.rows == users.rows - {uid}
    ensures r.1.rows.Keys == t.rows.Keys - OwnedBy(t, uid)
    ensures forall k :: k in r.1.rows ==> r.1.rows[k].user != uid
    ensures forall k :: k in r.1.rows ==> r.1.rows[k].(linkedHabit := t.rows[k].linkedHabit) == t.rows[k]
    ensures forall k :: k in r.1.rows ==>
      r.1.rows[k].linkedHabit ==
        (if t.rows[k].linkedHabit.Some? && t.rows[k].linkedHabit.value in OwnedBy(t, uid) then None
         else t.rows[k].linkedHabit)
    ensures OwnersExist(users, t) ==> OwnersExist(r.0, r.1)
    ensures Valid(t) ==> Valid(r.1)
    ensures LinksResolve(t) ==> LinksResolve(r.1)
  {
    (Users.UserTable(users.rows - {uid}, users.nextId), DeleteRows(t, OwnedBy(t, uid)))
  }

  // ----- Ordering -------------------------------------------------------------

  /** Ascending order of `next_reminder`, NULL before every timestamp. */
  predicate ReminderLe(a: Option<int>, b: Option<int>) {
    a.None? || (b.Some? && a.value <= b.value)
  }

  /** `Meta.ordering = ['next_reminder']`. */
  predicate SortedByReminder(s: seq<Habit>) {
    forall i, j :: 0 <= i < j < |s| ==> ReminderLe(s[i].nextReminder, s[j].nextReminder)
  }

  /** Inserts one habit into a listing that is already in reminder order. */
  function Insert(h: Habit, s: seq<Habit>): (r: seq<Habit>)
    requires SortedByReminder(s)
    ensures SortedByReminder(r)
    ensures multiset(r) == multiset(s) + multiset{h}
    decreases |s|
  {
    if |s| == 0 then
      [h]
    else if ReminderLe(h.nextReminder, s[0].nextReminder) then
      [h] + s
    else
      var tail := Insert(h, s[1..]);
      assert s == [s[0]] + s[1..];
      LowerBoundPrepends(s[0], s[1..] + [h], tail);
      [s[0]] + tail
  }

  /** A habit due no later than every element of a sorted listing can go in front of it. */
  lemma LowerBoundPrepends(x: Habit, pool: seq<Habit>, s: seq<Habit>)
    requires SortedByReminder(s)
    requires multiset(s) == multiset(pool)
    requires forall i :: 0 <= i < |pool| ==> ReminderLe(x.nextReminder, pool[i].nextReminder)
    ensures SortedByReminder([x] + s)
  {
    forall j | 0 <= j < |s| ensures ReminderLe(x.nextReminder, s[j].nextReminder) {
      assert s[j] in multiset(pool);
    }
  }
}

=== FILE: users.dfy ===
/**
  `CustomUser` and its manager: a user table keyed by an auto-increment id,
  `create_user` with its email checks and the unique-email constraint, and
  `create_superuser` with its flag defaults. Password hashing is an abstract
  set/check pair and email normalisation is supplied by the caller.
 */
module Users {
  import opened Base

  type UserId = nat

  /** A stored password; `set_password(None)` stores an unusable one. */
  datatype Password = Unusable | Hashed(secret: string)

  function SetPassword(raw: Option<string>): Password {
    if raw.Some? then Hashed(raw.value) else Unusable
  }

  function CheckPassword(stored: Password, raw: string): bool {
    stored.Hashed? && stored.secret == raw
  }

  /** `check_password` accepts exactly the password that was set, and nothing after `set_password(None)`. */
  lemma PasswordRoundTrip(raw: Option<string>, attempt: string)
    ensures CheckPassword(SetPassword(raw), attempt) <==> raw == Some(attempt)
  {
  }

  datatype User = User(
    id: UserId,
    email: string,
    password: Password,
    phoneNumber: Option<string>,
    telegramUsername: Option<string>,
    telegramChatId: Option<string>,
    isActive: bool,
    isStaff: bool,
    isSuperuser: bool)

  /** `CustomUser.__str__`. */
  function Str(u: User): string {
    u.email
  }

  /** The `**extra_fields` a caller may pass; `None` means the keyword was not given. */
  datatype ExtraFields = ExtraFields(
    phoneNumber: Option<string>,
    telegramUsername: Option<string>,
    telegramChatId: Option<string>,
    isActive: Option<bool>,
    isStaff: Option<bool>,
    isSuperuser: Option<bool>)

  /** The user table: rows by primary key and the next value of the key sequence. */
  datatype UserTable = UserTable(rows: map<UserId, User>, nextId: UserId)

  /** Keys come from the sequence and each row carries its own key. */
  predicate Valid(t: UserTable) {
    forall k :: k in t.rows ==> k < t.nextId && t.rows[k].id == k
  }

  /** The unique constraint on `email`. */
  predicate EmailsUnique(t: UserTable) {
    forall j, k :: j in t.rows && k in t.rows && j != k ==> t.rows[j].email != t.rows[k].email
  }

  predicate EmailTaken(t: UserTable, email: string) {
    exists k :: k in t.rows && t.rows[k].email == email
  }

  datatype UserError =
    | EmailRequired    // ValueError: empty email
    | EmailInvalid     // ValueError: no '@'
    | EmailNotUnique   // IntegrityError from the unique constraint on save
    | StaffRequired    // ValueError: superuser without is_staff=True
    | SuperuserRequired  // ValueError: superuser without is_superuser=True

  /**
    `create_user`: an empty email and an email without '@' raise `ValueError`;
    the normalised email must be new to the table; otherwise a new row with the
    next id, the normalised email, the given password and the extra fields
    (defaults: active, not staff, not superuser, no phone / username / chat id).
   */
  function CreateUser(t: UserTable, email: string, password: Option<string>, extra: ExtraFields,
                      normalize: string -> string): (r: Result<(UserTable, User), UserError>)
    requires Valid(t)
    ensures email == [] ==> r == Err(EmailRequired)
    ensures email != [] && '@' !in email ==> r == Err(EmailInvalid)
    ensures r.Err? && r.error == EmailNotUnique <==> email != [] && '@' in email && EmailTaken(t, normalize(email))
    ensures r.Ok? <==> email != [] && '@' in email && !EmailTaken(t, normalize(email))
    ensures r.Ok? ==>
      var (t', u) := r.value;
      && u.id !in t.rows
      && t'.rows == t.rows[u.id := u]
      && Valid(t')
      && Str(u) == normalize(email)
      && (forall attempt :: CheckPassword(u.password, attempt) <==> password == Some(attempt))
      && u.telegramChatId == extra.telegramChatId
      && u.telegramUsername == extra.telegramUsername
      && u.isActive == extra.isActive.GetOr(true)
      && u.isStaff == extra.isStaff.GetOr(false)
      && u.isSuperuser == extra.isSuperuser.GetOr(false)
    ensures r.Ok? && EmailsUnique(t) ==> EmailsUnique(r.value.0)
  {
    if email == [] then
      Err(EmailRequired)
    else if '@' !in email then
      Err(EmailInvalid)
    else
      var normalized := normalize(email);
      var u := User(t.nextId, normalized, SetPassword(password), extra.phoneNumber, extra.telegramUsername,
                    extra.telegramChatId, extra.isActive.GetOr(true), extra.isStaff.GetOr(false),
                    extra.isSuperuser.GetOr(false));
      if exists k :: k in t.rows && t.rows[k].email == normalized then
        Err(EmailNotUnique)
      else
        Ok((UserTable(t.rows[u.id := u], t.nextId + 1), u))
  }

  /**
    `create_superuser`: `is_staff` and `is_superuser` default to True; either
    one given as anything but True raises `ValueError` before the email is
    looked at; otherwise it is `create_user` with both flags set.
   */
  function CreateSuperuser(t: UserTable, email: string, password: Option<string>, extra: ExtraFields,
                           normalize: string -> string): (r: Result<(UserTable, User), UserError>)
    requires Valid(t)
    ensures extra.isStaff == Some(false) ==> r == Err(StaffRequired)
    ensures extra.isStaff != Some(false) && extra.isSuperuser == Some(false) ==> r == Err(SuperuserRequired)
    ensures r.Ok? ==> r.value.1.isStaff && r.value.1.isSuperuser
    ensures extra.isStaff != Some(false) && extra.isSuperuser != Some(false) ==>
      (r.Ok? <==> CreateUser(t, email, password, extra, normalize).Ok?)
    ensures extra.isStaff != Some(false) && extra.isSuperuser != Some(false) && r.Err? ==>
      r == CreateUser(t, email, password, extra, normalize)
    ensures r.Ok? ==>
      var u := r.value.1;
      && Str(u) == normalize(email)
      && (forall attempt :: CheckPassword(u.password, attempt) <==> password == Some(attempt))
      && u.isActive == extra.isActive.GetOr(true)
      && u.telegramUsername == extra.telegramUsername
      && u.telegramChatId == extra.telegramChatId
    ensures r.Ok? ==> r.value.0.rows == t.rows[r.value.1.id := r.value.1] && r.value.1.id !in t.rows
  {
    var staff := extra.isStaff.GetOr(true);
    var superuser := extra.isSuperuser.GetOr(true);
    if staff != true then
      Err(StaffRequired)
    else if superuser != true then
      Err(SuperuserRequired)
    else
      var flags := extra.(isStaff := Some(staff), isSuperuser := Some(superuser));
      CreateUser(t, email, password, flags, normalize)
  }

  /** Two successful creations with the same email: the second is refused and stores nothing. */
  lemma SecondUserWithSameEmailRefused(t: UserTable, email: string, p1: Option<string>,
                                                          p2: Option<string>, e1: ExtraFields, e2: ExtraFields,
                                                          normalize: string -> string)
    requires Valid(t)
    requires CreateUser(t, email, p1, e1, normalize).Ok?
    ensures CreateUser(CreateUser(t, email, p1, e1, normalize).value.0, email, p2, e2, normalize) == Err(EmailNotUnique)
  {
    var (t', u) := CreateUser(t, email, p1, e1, normalize).value;
    assert t'.rows[u.id].email == normalize(email);
    assert EmailTaken(t', normalize(email));
  }
}

=== FILE: views.dfy ===
/**
  `HabitViewSet`: every request sees only the requesting user's habits. The
  listing is the owner-filtered table in the model's default ordering;
  retrieve, update and destroy look the row up in that same filtered set;
  create and update save with the requesting user as owner.
 */
module Views {
  import opened Base
  import opened Habits
  import opened HabitStore
  import Users

  /** A row outside the requester's habits answers 404. */
  datatype ViewError = NotFound

  /** `get_object`: the habit with this id among the requester's own habits. */
  function GetObject(t: HabitTable, id: HabitId, requester: Users.UserId): (r: Option<Habit>)
    ensures r.Some? <==> id in OwnedBy(t, requester)
    ensures r.Some? ==> r.value == t.rows[id] && r.value.user == requester
  {
    if id in t.rows && t.rows[id].user == requester then Some(t.rows[id]) else None
  }

  /**
    `get_queryset` listed: each of the requester's habits exactly once, no
    other user's habit, in ascending `next_reminder` order.
   */
  method GetQueryset(t: HabitTable, requester: Users.UserId) returns (r: seq<Habit>)
    ensures SortedByReminder(r)
    ensures forall i :: 0 <= i < |r| ==> r[i] in t.rows.Values && r[i].user == requester
    ensures forall k :: k in OwnedBy(t, requester) ==> t.rows[k] in r
    ensures |r| == |OwnedBy(t, requester)|
  {
    var owned := OwnedBy(t, requester);
    var todo := owned;
    r := [];
    while todo != {}
      invariant todo <= owned
      invariant SortedByReminder(r)
      invariant forall i :: 0 <= i < |r| ==> r[i] in t.rows.Values && r[i].user == requester
      invariant forall k :: k in owned - todo ==> t.rows[k] in r
      invariant |r| + |todo| == |owned|
      decreases todo
    {
      var k :| k in todo;
      var before := r;
      r := Insert(t.rows[k], r);
      assert forall x :: x in before ==> x in multiset(r);
      assert t.rows[k] in multiset(r);
      forall i | 0 <= i < |r| ensures r[i] in t.rows.Values && r[i].user == requester {
        assert r[i] in multiset(before) + multiset{t.rows[k]};
      }
      todo := todo - {k};
    }
  }

  /**
    `perform_create`: the validated habit is saved with the requesting user as
    owner under the next id; `save` gives it its first reminder; no other row
    changes and no other user gains or loses a habit.
   */
  function PerformCreate(t: HabitTable, draft: Habit, requester: Users.UserId, now: int): (r: (HabitTable, Habit))
    requires Valid(t)
    ensures var (t', h) := r;
      && h.id !in t.rows
      && t'.rows == t.rows[h.id := h]
      && Valid(t')
      && h.user == requester
      && h.(id := draft.id, user := draft.user, nextReminder := draft.nextReminder) == draft
      && (draft.nextReminder.Some? ==> h.nextReminder == draft.nextReminder)
      && (draft.nextReminder.None? ==> h.nextReminder == Some(now + draft.frequency * SecondsPerDay))
      && OwnedBy(t', requester) == OwnedBy(t, requester) + {h.id}
      && (forall other :: other != requester ==> OwnedBy(t', other) == OwnedBy(t, other))
  {
    var h := Save(draft.(id := t.nextId, user := requester), now);
    var t' := HabitTable(t.rows[h.id := h], t.nextId + 1);
    assert OwnedBy(t', requester) == OwnedBy(t, requester) + {h.id};
    (t', h)
  }

  /**
    `perform_update`: only a habit of the requester can be updated (any other
    id answers 404); it is saved with the requester as owner, so no habit
    changes owner and no other row changes.
   */
  function PerformUpdate(t: HabitTable, id: HabitId, draft: Habit, requester: Users.UserId, now: int)
    : (r: Result<(HabitTable, Habit), ViewError>)
    requires Valid(t)
    ensures r.Ok? <==> id in OwnedBy(t, requester)
    ensures r.Ok? ==>
      var (t', h) := r.value;
      && h.id == id
      && t'.rows == t.rows[id := h]
      && Valid(t')
      && h.user == requester
      && h.(id := draft.id, user := draft.user, nextReminder := draft.nextReminder) == draft
      && (draft.nextReminder.Some? ==> h.nextReminder == draft.nextReminder)
      && (draft.nextReminder.None? ==> h.nextReminder == Some(now + draft.frequency * SecondsPerDay))
      && (forall u :: OwnedBy(t', u) == OwnedBy(t, u))
  {
    match GetObject(t, id, requester)
    case None => Err(NotFound)
    case Some(current) =>
      var h := Save(draft.(id := id, user := requester), now);
      var t' := Write(t, h);
      assert forall u :: OwnedBy(t', u) == OwnedBy(t, u) by {
        forall u ensures OwnedBy(t', u) == OwnedBy(t, u) {
          assert t'.rows.Keys == t.rows.Keys;
        }
      }
      Ok((t', h))
  }

  /**
    `destroy`: only a habit of the requester can be deleted; it goes with
    SET_NULL on links to it, and every other habit, of any user, stays.
   */
  function Destroy(t: HabitTable, id: HabitId, requester: Users.UserId): (r: Result<HabitTable, ViewError>)
    ensures r.Ok? <==> id in OwnedBy(t, requester)
    ensures r.Ok? ==> r.value.rows.Keys == t.rows.Keys - {id}
    ensures r.Ok? ==> forall u :: u != requester ==> OwnedBy(r.value, u) == OwnedBy(t, u)
    ensures r.Ok? ==> forall k :: k in r.value.rows ==>
      r.value.rows[k] == (if t.rows[k].linkedHabit == Some(id) then t.rows[k].(linkedHabit := None) else t.rows[k])
    ensures r.Err? ==> id !in t.rows || t.rows[id].user != requester
  {
    match GetObject(t, id, requester)
    case None => Err(NotFound)
    case Some(_) =>
      var t' := DeleteHabit(t, id);
      assert forall u :: u != requester ==> OwnedBy(t', u) == OwnedBy(t, u) by {
        forall u | u != requester ensures OwnedBy(t', u) == OwnedBy(t, u) {
          assert forall k :: k in t'.rows ==> t'.rows[k].user == t.rows[k].user;
        }
      }
      Ok(t')
  }
}
